=== FILE: README.md ===
# Backend uplink worker — a Dafny model

This project models the delivery engine of the OpenEMS Edge backend API
controller, `BackendWorker`. On every cycle the worker samples the value of
every readable channel of every enabled component into a per-channel sliding
value. Every `noOfCycles` cycles it builds one timestamped data notification,
in one of two modes:

- changed-only: the addresses whose sliding value reports a change;
- all-values: every known address, used on the first flush and once after
  each `sendValuesOfAllChannelsOnce`.

It then sends the notification over the websocket. A rejected notification
goes into an evicting queue of 1000 unsent messages. After an accepted
notification, or when there was nothing to send, every cached message is
retried.

The model is a pure state machine:

- `Worker.Worker` is the worker's state: `cycleCount`, `increasedNoOfCycles`,
  `sendChangedValuesOnly`, `unsent` and `data`.
- `Worker.Step` is one run of `forever()`.
- `Runs.Run` applies any sequence of cycles and all-values triggers.

The outside world is an input of each step (`Worker.Env`):

- the components and their channels;
- the wall clock in milliseconds;
- the cycle time;
- the transport, as an oracle where `transport(k)` is the result of the
  k-th `sendMessage` call of that cycle.

The sliding value classes are not part of this model. They are kept abstract
as a type parameter together with four uninterpreted operations
(`Types.SlidingOps`):

- create a value for a kind;
- add a sample;
- report the current value;
- report the changed value or nothing.

Both getters also return the sliding value as it is afterwards, so any
internal bookkeeping they do is covered.

Modules:

- `Types`: channel addresses and types, sliding value kinds, the type-to-kind table, messages.
- `Collect`: `updateData`, as a sequential fold over the sampled channels.
- `Snapshot`: building the values of a flush in either mode.
- `UnsentCache`: the evicting queue and the drain of cached messages.
- `Backoff`: `increaseNoOfCycles` / `resetNoOfCycles`.
- `Timestamp`: rounding the clock to the cycle time with Java's truncating division.
- `Worker`: the state, one step, and per-step properties.
- `Runs`: runs of many steps, and the properties that hold over them.

## Behaviour worth knowing

These are facts about `BackendWorker.java` that the model reproduces:

- The flush gate at line 84 compares the count with the configured
  `noOfCycles` only. The back-off value is read in one place, by
  `increaseNoOfCycles` (lines 243-244). That read always finds an empty value,
  because `resetNoOfCycles` runs just before it, at line 131. So the back-off
  has no effect on how often the worker flushes (`Worker.StepIgnoresBackoff`).
- `resetNoOfCycles` runs before every send (line 131), whether the send then
  succeeds or fails. A failure therefore always increases from the configured
  value, and the result is the same after any number of failures in a row
  (`Backoff.FailedSendBacksOffOnce`).
- The loop over cached messages (lines 149-156) has no `break`. It tries every
  cached message, so a later message can be delivered while an earlier,
  rejected one stays cached (`UnsentCache.ContinuesPastFailure`).
- The comment at lines 51-52 says the worker sends only changed values by
  default. Line 53 starts `sendChangedValuesOnly` at `false`, so a new
  worker's first flush sends every value (`Runs.FirstFlushSendsAll`).
- The timestamp at line 124 is rounded to the worker's cycle time in
  milliseconds (`getCycleTime()`), not to the `noOfCycles` flush interval.

## Model

| member | source | states |
|---|---|---|
| Types.KindFor | io.openems.edge.controller.api.backend/src/io/openems/edge/controller/api/backend/BackendWorker.java:179-209 | a new sliding value always fits the add dispatch of its own type (so INTEGER, DOUBLE, FLOAT, LONG and SHORT each get the numeric class of that type), and it is a latest-value holder remembering its type exactly for BOOLEAN, STRING and ENUM |
| Types.KindForInjectiveAndCastable | io.openems.edge.controller.api.backend/src/io/openems/edge/controller/api/backend/BackendWorker.java:179-233 | distinct channel types get distinct kinds; a new entry always fits the add dispatch of its own type, and fits another type only when both are latest types |
| Collect.Observe | io.openems.edge.controller.api.backend/src/io/openems/edge/controller/api/backend/BackendWorker.java:179-233 | one channel: fails exactly when an existing entry's class cannot be cast for the channel's type; otherwise the address is added if missing, other entries are untouched and no kind changes |
| Collect.Sampled | io.openems.edge.controller.api.backend/src/io/openems/edge/controller/api/backend/BackendWorker.java:164-170 | every sampled channel is readable, and with no enabled component nothing is sampled |
| Collect.ObserveAll | io.openems.edge.controller.api.backend/src/io/openems/edge/controller/api/backend/BackendWorker.java:163-235 | collection never removes a key, never changes an existing entry's kind, only adds sampled addresses, and a failure names a sampled address |
| Collect.ReadableChannelsExactly | io.openems.edge.controller.api.backend/src/io/openems/edge/controller/api/backend/BackendWorker.java:167-169 | write-only channels are dropped and every read-only or read-write channel is kept |
| Collect.SampledExactly | io.openems.edge.controller.api.backend/src/io/openems/edge/controller/api/backend/BackendWorker.java:164-170 | a channel is sampled iff it is readable and belongs to an enabled component |
| Collect.ObserveAllSucceeds | io.openems.edge.controller.api.backend/src/io/openems/edge/controller/api/backend/BackendWorker.java:180-233 | collection completes iff every sampled channel fits the class its address ends up with (existing kind, else the kind of its first channel's type) |
| Collect.ObserveAllContents | io.openems.edge.controller.api.backend/src/io/openems/edge/controller/api/backend/BackendWorker.java:163-235 | after a complete collection the keys are the old ones plus the sampled addresses, and each entry holds its existing or newly created value with every sample of that address added exactly once, in order |
| Snapshot.Snapshot | io.openems.edge.controller.api.backend/src/io/openems/edge/controller/api/backend/BackendWorker.java:99-114 | changed-only mode: exactly the addresses whose changed value is non-null, each with that value; all-values mode: every address with its current value; asking keeps the key set and every entry's kind |
| Snapshot.BuildSnapshot | io.openems.edge.controller.api.backend/src/io/openems/edge/controller/api/backend/BackendWorker.java:99-114 | changed-only mode: exactly the addresses whose changed value is non-null, each with that value; all-values mode: every address with its current value; no other key |
| Snapshot.AllValuesNeverEmpty | io.openems.edge.controller.api.backend/src/io/openems/edge/controller/api/backend/BackendWorker.java:109-121 | an all-values snapshot has one value per known address, so a send is attempted whenever any data exists, unless the cycle time is zero |
| Snapshot.ChangedOnlyWithinAll | io.openems.edge.controller.api.backend/src/io/openems/edge/controller/api/backend/BackendWorker.java:99-114 | a changed-only snapshot holds a subset of the addresses of an all-values one |
| UnsentCache.Push | io.openems.edge.controller.api.backend/src/io/openems/edge/controller/api/backend/BackendWorker.java:33-49 | the queue grows by one up to 1000 entries, the new message is at the tail, and a full queue drops exactly its head |
| UnsentCache.PushAllKeepsNewest | io.openems.edge.controller.api.backend/src/io/openems/edge/controller/api/backend/BackendWorker.java:33-49 | any number of pushes leaves exactly the newest 1000 messages in insertion order |
| UnsentCache.NewestPush | io.openems.edge.controller.api.backend/src/io/openems/edge/controller/api/backend/BackendWorker.java:33-49 | evicting the head of a full queue does not change which newest 1000 messages remain after further pushes |
| UnsentCache.OverflowDropsFirst | io.openems.edge.controller.api.backend/src/io/openems/edge/controller/api/backend/BackendWorker.java:49 | 1001 pushes onto an empty queue leave all but the first message |
| UnsentCache.Drain | io.openems.edge.controller.api.backend/src/io/openems/edge/controller/api/backend/BackendWorker.java:148-157 | the drain never grows the queue |
| UnsentCache.DrainCache | io.openems.edge.controller.api.backend/src/io/openems/edge/controller/api/backend/BackendWorker.java:148-157 | the iterator loop keeps exactly the rejected messages in order, and the queue shrinks by exactly the number of accepted sends |
| UnsentCache.DrainLength | io.openems.edge.controller.api.backend/src/io/openems/edge/controller/api/backend/BackendWorker.java:149-156 | the drained queue is shorter by exactly the number of accepted attempts |
| UnsentCache.DrainAppend | io.openems.edge.controller.api.backend/src/io/openems/edge/controller/api/backend/BackendWorker.java:149-156 | each message's fate depends only on its own attempt, and survivors keep their relative order |
| UnsentCache.DrainExtremes | io.openems.edge.controller.api.backend/src/io/openems/edge/controller/api/backend/BackendWorker.java:149-156 | all attempts accepted empties the queue; all rejected leaves it unchanged |
| UnsentCache.ContinuesPastFailure | io.openems.edge.controller.api.backend/src/io/openems/edge/controller/api/backend/BackendWorker.java:149-156 | a rejected message does not stop the loop: later accepted messages are still removed |
| Backoff.IncreaseNoOfCycles | io.openems.edge.controller.api.backend/src/io/openems/edge/controller/api/backend/BackendWorker.java:241-252 | starts from the set value or noOfCycles, never lowers it, adds one iff the start is below 60, and never raises past 60 |
| Backoff.ResetNoOfCycles | io.openems.edge.controller.api.backend/src/io/openems/edge/controller/api/backend/BackendWorker.java:258-260 | the raised value is forgotten, so the next increase starts again from noOfCycles |
| Backoff.FailedSendBacksOffOnce | io.openems.edge.controller.api.backend/src/io/openems/edge/controller/api/backend/BackendWorker.java:131-137 | reset followed by increase gives noOfCycles+1 below 60, noOfCycles otherwise |
| Backoff.IncreaseTimesBound | io.openems.edge.controller.api.backend/src/io/openems/edge/controller/api/backend/BackendWorker.java:241-252 | n increases without a reset climb by one each and stop at 60, or stay put when starting at 60 or above |
| Timestamp.TruncateAligns | io.openems.edge.controller.api.backend/src/io/openems/edge/controller/api/backend/BackendWorker.java:123-124 | for a non-negative clock and a non-zero cycle time, the timestamp is a multiple of the cycle time, not after now, and less than one cycle before it |
| Timestamp.Truncate | io.openems.edge.controller.api.backend/src/io/openems/edge/controller/api/backend/BackendWorker.java:124 | the timestamp never has the opposite sign of the clock |
| Timestamp.TruncateIsLatestMultiple | io.openems.edge.controller.api.backend/src/io/openems/edge/controller/api/backend/BackendWorker.java:123-124 | for a non-negative clock and any non-zero cycle time, no multiple of the cycle time lies strictly between the timestamp and now |
| Timestamp.TruncateNegativeRoundsUp | io.openems.edge.controller.api.backend/src/io/openems/edge/controller/api/backend/BackendWorker.java:124 | Java's division rounds a negative clock toward zero, at most one cycle up |
| Worker.Deliver | io.openems.edge.controller.api.backend/src/io/openems/edge/controller/api/backend/BackendWorker.java:116-157 | sending keeps the count, the flag and the data, and keeps the state invariant |
| Worker.Step | io.openems.edge.controller.api.backend/src/io/openems/edge/controller/api/backend/BackendWorker.java:78-158 | one cycle keeps the state invariant, never removes a data key and never changes an entry's kind |
| Worker.Init | io.openems.edge.controller.api.backend/src/io/openems/edge/controller/api/backend/BackendWorker.java:40-53 | a new worker satisfies the state invariant for every noOfCycles, starts in all-values mode, and has no cached messages and no data |
| Worker.SendValuesOfAllChannelsOnce | io.openems.edge.controller.api.backend/src/io/openems/edge/controller/api/backend/BackendWorker.java:73-76 | the next flush will send all values; nothing else in the state changes and the invariant is kept |
| Worker.StepGate | io.openems.edge.controller.api.backend/src/io/openems/edge/controller/api/backend/BackendWorker.java:80-93 | a cycle is counted iff collection completes; below noOfCycles only the count and data change; otherwise the count restarts at 0 and a flush happens; a failed collection changes only the data |
| Worker.StepData | io.openems.edge.controller.api.backend/src/io/openems/edge/controller/api/backend/BackendWorker.java:78-113 | the worker keeps the data its collection produced: unchanged after a waiting or failed cycle, and with every entry as asking left it after a flush |
| Worker.StepCollects | io.openems.edge.controller.api.backend/src/io/openems/edge/controller/api/backend/BackendWorker.java:78-113 | after a completed collection the worker's data holds exactly the old and the sampled addresses; on a waiting cycle each entry is its old (or new) sliding value with every sample added in order, and on a flush that entry as asking left it |
| Worker.StepModeFlag | io.openems.edge.controller.api.backend/src/io/openems/edge/controller/api/backend/BackendWorker.java:95-96 | a flush uses the flag as it was and leaves it changed-only; no other step touches it |
| Worker.DeliverMessage | io.openems.edge.controller.api.backend/src/io/openems/edge/controller/api/backend/BackendWorker.java:116-142 | nothing is sent iff there are no values; a zero cycle time throws; otherwise the message counts as sent iff sendMessage returned true and is cached iff it returned false, and carries the values and the truncated clock |
| Worker.StepMessage | io.openems.edge.controller.api.backend/src/io/openems/edge/controller/api/backend/BackendWorker.java:98-142 | a flush sends the snapshot of the collected data in the flag's mode, stamped with an aligned timestamp; it sends nothing iff that snapshot is empty, and the message is sent iff the transport accepted it and cached iff it rejected it |
| Worker.DeliverBackoff | io.openems.edge.controller.api.backend/src/io/openems/edge/controller/api/backend/BackendWorker.java:130-137 | accepted leaves the back-off unset, rejected leaves it at noOfCycles+1 (or noOfCycles at 60 and above), otherwise it is unchanged |
| Worker.StepBackoff | io.openems.edge.controller.api.backend/src/io/openems/edge/controller/api/backend/BackendWorker.java:130-137 | the same three outcomes for a whole cycle; waiting cycles and failed collections leave the back-off alone |
| Worker.StepIgnoresBackoff | io.openems.edge.controller.api.backend/src/io/openems/edge/controller/api/backend/BackendWorker.java:84-137 | the back-off value never changes the events, the count, the flag, the cache or the data |
| Worker.DeliverIgnoresBackoff | io.openems.edge.controller.api.backend/src/io/openems/edge/controller/api/backend/BackendWorker.java:116-157 | the sending half reads no back-off value: outcome, count, flag, cache and data are the same whatever it holds |
| Worker.DeliverCache | io.openems.edge.controller.api.backend/src/io/openems/edge/controller/api/backend/BackendWorker.java:133-157 | rejected: the message is pushed and nothing is drained; accepted or empty: the cache is drained; zero cycle time: the cache is untouched |
| Worker.StepCache | io.openems.edge.controller.api.backend/src/io/openems/edge/controller/api/backend/BackendWorker.java:116-157 | the same for a whole cycle, with the cache shrinking by exactly the number of accepted retries |
| Worker.AllValuesOnceNextFlush | io.openems.edge.controller.api.backend/src/io/openems/edge/controller/api/backend/BackendWorker.java:73-114 | after the trigger, the next flush is all-values, carries every collected address, and resets the flag |
| Runs.Run | io.openems.edge.controller.api.backend/src/io/openems/edge/controller/api/backend/BackendWorker.java:78-158 | any run keeps the state invariant, only grows the data's key set and keeps every entry's kind |
| Runs.RunCycleCount | io.openems.edge.controller.api.backend/src/io/openems/edge/controller/api/backend/BackendWorker.java:84-93 | with noOfCycles of at least 1, after t counted cycles from count c there were (c+t)/noOfCycles flushes and the count is (c+t) mod noOfCycles |
| Runs.RunCountBalance | io.openems.edge.controller.api.backend/src/io/openems/edge/controller/api/backend/BackendWorker.java:84-93 | over any run the count stays below noOfCycles, and the count plus noOfCycles per flush equals the starting count plus the counted cycles |
| Runs.ApplyCount | io.openems.edge.controller.api.backend/src/io/openems/edge/controller/api/backend/BackendWorker.java:84-93 | one input leaves the count unchanged if not counted, raises it by one when waiting, and wraps it from noOfCycles-1 to 0 on a flush |
| Runs.RunModeFlags | io.openems.edge.controller.api.backend/src/io/openems/edge/controller/api/backend/BackendWorker.java:51-96 | each flush uses the mode set by the latest flush or trigger before it, else the initial flag |
| Runs.ApplyMode | io.openems.edge.controller.api.backend/src/io/openems/edge/controller/api/backend/BackendWorker.java:73-96 | one input sets the flag as its event says (a trigger to all-values, a flush to changed-only), and a flush uses the flag as it was |
| Runs.FirstFlushSendsAll | io.openems.edge.controller.api.backend/src/io/openems/edge/controller/api/backend/BackendWorker.java:51-53 | a new worker's first flush sends all values |
| Runs.FlushAfterFlushIsChangedOnly | io.openems.edge.controller.api.backend/src/io/openems/edge/controller/api/backend/BackendWorker.java:95-96 | with no trigger between two flushes, the second is changed-only |
| Runs.FlushAfterTriggerSendsAll | io.openems.edge.controller.api.backend/src/io/openems/edge/controller/api/backend/BackendWorker.java:73-75 | the first flush after a trigger sends all values |
| Runs.RunFromInitIsValid | io.openems.edge.controller.api.backend/src/io/openems/edge/controller/api/backend/BackendWorker.java:33-53 | from a new worker: at most 1000 cached messages, the count is never negative and stays below noOfCycles when noOfCycles is at least 1, and the back-off is unset or noOfCycles+1 (noOfCycles at 60 and above) |

## Left out

- The parallel fan-out of `updateData` is modelled as a sequential fold in component and channel order. With the parallel stream, the set of entries already updated when a cast fails depends on thread scheduling.
- `Collect.Observe`: the casts of the sample value itself (`(Integer) value` and the like) are not modelled. A channel's value is taken to match its declared type.
- The warning logged for option channels not declared as ENUM is left out. It only writes to the log.
- The internals of the sliding value classes are left out: how samples are folded and how a change is detected. The classes are not part of this model and are abstract operations here.
- `triggerNextRun`, `getCycleTime` and activation and deactivation belong to the cycle worker base class, which is not part of this model. The cycle time is an input, and the early wake-up is not modelled.
- The websocket and the clock are oracle inputs. The JSON-RPC notification and its JSON encoding are an opaque `Msg(timestamp, values)` record.
- `Worker.Step`: an exception thrown inside the cycle is modelled as the end of that cycle, with the state changes made before it kept. The cycle worker base class, which catches the exception, is not part of this model.
- `JsonApi` is an interface declaration with no logic. `OutPFSetEna` and `VendorOperatingState` are constant enum tables. All three are left out.

=== FILE: backoff.dfy ===
/**
 The worker's back-off counter `increasedNoOfCycles`: raised after a failed
 send, cleared before every send. The flush gate never reads it.
 */
module Backoff {
  import opened Types

  /** The counter is not raised beyond this many cycles. */
  const MaxIncreasedNoOfCycles: int := 60

  /**
   `increaseNoOfCycles`: starts from the current value, or from the
   configured `noOfCycles` when none is set, and adds one unless that start
   is already 60 or more.
   */
  function IncreaseNoOfCycles(increased: Option<int>, noOfCycles: int): (r: Option<int>)
    ensures r.Some?
    ensures var start := if increased.Some? then increased.value else noOfCycles;
            && start <= r.value
            && r.value <= (if start < MaxIncreasedNoOfCycles then MaxIncreasedNoOfCycles else start)
            && (r.value == start + 1 <==> start < MaxIncreasedNoOfCycles)
            && (r.value == start <==> start >= MaxIncreasedNoOfCycles)
  {
    var start := if increased.Some? then increased.value else noOfCycles;
    if start < MaxIncreasedNoOfCycles then Some(start + 1) else Some(start)
  }

  /** `resetNoOfCycles`: forgets any raised value, so the next increase starts from `noOfCycles`. */
  function ResetNoOfCycles(): (r: Option<int>)
    ensures r.None?
    ensures forall noOfCycles :: IncreaseNoOfCycles(r, noOfCycles) == Some(BackedOff(noOfCycles))
  {
    None
  }

  /** The value a failed flush leaves: reset, then increased once from `noOfCycles`. */
  function BackedOff(noOfCycles: int): int {
    if noOfCycles < MaxIncreasedNoOfCycles then noOfCycles + 1 else noOfCycles
  }

  /**
   Because the counter is reset immediately before each send, a failure
   always increases from the configured value: the back-off never exceeds
   one cycle above `noOfCycles`, however many sends failed before.
   */
  lemma FailedSendBacksOffOnce(noOfCycles: int)
    ensures IncreaseNoOfCycles(ResetNoOfCycles(), noOfCycles) == Some(BackedOff(noOfCycles))
    ensures noOfCycles < MaxIncreasedNoOfCycles ==> BackedOff(noOfCycles) == noOfCycles + 1
    ensures noOfCycles >= MaxIncreasedNoOfCycles ==> BackedOff(noOfCycles) == noOfCycles
  {
  }

  /** `n` calls of `increaseNoOfCycles` with no reset in between. */
  function IncreaseTimes(increased: Option<int>, noOfCycles: int, n: nat): Option<int>
    decreases n
  {
    if n == 0 then increased else IncreaseTimes(IncreaseNoOfCycles(increased, noOfCycles), noOfCycles, n - 1)
  }

  /**
   Repeated increases without a reset climb by one per call and stop at 60,
   never passing the larger of 60 and the starting value.
   */
  lemma {:induction false} IncreaseTimesBound(v: int, noOfCycles: int, n: nat)
    ensures IncreaseTimes(Some(v), noOfCycles, n).Some?
    ensures var w := IncreaseTimes(Some(v), noOfCycles, n).value;
            w == if v + n <= MaxIncreasedNoOfCycles then v + n
                 else if v < MaxIncreasedNoOfCycles then MaxIncreasedNoOfCycles
                 else v
    decreases n
  {
    if n > 0 {
      IncreaseTimesBound(IncreaseNoOfCycles(Some(v), noOfCycles).value, noOfCycles, n - 1);
    }
  }
}

=== FILE: cache.dfy ===
/**
 The worker's queue of unsent messages: an evicting FIFO of capacity
 `MaxCachedMessages`, and the drain that retries every cached message once,
 oldest first, removing those the transport accepted.

 Transport outcomes are an oracle: `transport(k)` is the result of the k-th
 `sendMessage` call of the current cycle.
 */
module UnsentCache {

  const MaxCachedMessages: nat := 1000

  /**
   Appends `m`; when the queue is full the oldest entry is evicted first.
   For queues longer than the capacity (never reached by the worker) the
   newest `MaxCachedMessages` entries are kept.
   */
  function Push<M>(q: seq<M>, m: M): (r: seq<M>)
    ensures |r| == if |q| < MaxCachedMessages then |q| + 1 else MaxCachedMessages
    ensures r[|r| - 1] == m
    ensures |q| < MaxCachedMessages ==> r == q + [m]
    ensures |q| == MaxCachedMessages ==> r == q[1..] + [m]
  {
    var all := q + [m];
    if |all| <= MaxCachedMessages then all else all[|all| - MaxCachedMessages..]
  }

  /** Pushes every message of `ms`, in order. */
  function PushAll<M>(q: seq<M>, ms: seq<M>): seq<M>
    decreases |ms|
  {
    if |ms| == 0 then q else PushAll(Push(q, ms[0]), ms[1..])
  }

  /** The newest `MaxCachedMessages` elements of `s`, in order. */
  function Newest<M>(s: seq<M>): (r: seq<M>)
    ensures |r| <= MaxCachedMessages
  {
    if |s| <= MaxCachedMessages then s else s[|s| - MaxCachedMessages..]
  }

  /**
   Pushing any number of messages onto a queue within capacity leaves exactly
   the newest `MaxCachedMessages` of all of them, in insertion order: every
   message pushed beyond capacity evicts exactly one of the oldest.
   */
  lemma {:induction false} PushAllKeepsNewest<M>(q: seq<M>, ms: seq<M>)
    requires |q| <= MaxCachedMessages
    ensures PushAll(q, ms) == Newest(q + ms)
    decreases |ms|
  {
    if |ms| > 0 {
      calc {
        PushAll(q, ms);
        PushAll(Push(q, ms[0]), ms[1..]);
        { PushAllKeepsNewest(Push(q, ms[0]), ms[1..]); }
        Newest(Push(q, ms[0]) + ms[1..]);
        { NewestPush(q, ms[0], ms[1..]); }
        Newest((q + [ms[0]]) + ms[1..]);
        { SplitFirst(q, ms); }
        Newest(q + ms);
      }
    }
  }

  lemma SplitFirst<M>(q: seq<M>, ms: seq<M>)
    requires |ms| > 0
    ensures (q + [ms[0]]) + ms[1..] == q + ms
  {
    assert ms == [ms[0]] + ms[1..];
  }

  /** Evicting the head on a full push does not change the newest window of what follows. */
  lemma NewestPush<M>(q: seq<M>, m: M, rest: seq<M>)
    requires |q| <= MaxCachedMessages
    ensures Newest(Push(q, m) + rest) == Newest((q + [m]) + rest)
  {
    var all := q + [m];
    if |all| > MaxCachedMessages {
      assert Push(q, m) == all[1..];
      assert all[1..] + rest == (all + rest)[1..];
    }
  }

  /** One push beyond capacity drops exactly the first message. */
  lemma OverflowDropsFirst<M>(ms: seq<M>)
    requires |ms| == MaxCachedMessages + 1
    ensures PushAll([], ms) == ms[1..]
  {
    PushAllKeepsNewest([], ms);
    assert [] + ms == ms;
  }

  /**
   Tries every message of `q` once, in order; the i-th attempt uses
   `transport(first + i)`. Messages that were accepted are removed, the
   others stay; a failure does not stop the loop.
   */
  function Drain<M>(q: seq<M>, transport: nat -> bool, first: nat): (r: seq<M>)
    ensures |r| <= |q|
    decreases |q|
  {
    if |q| == 0 then []
    else if transport(first) then Drain(q[1..], transport, first + 1)
    else [q[0]] + Drain(q[1..], transport, first + 1)
  }

  /** Number of accepted attempts among `transport(first) .. transport(first + n - 1)`. */
  function Accepted(transport: nat -> bool, first: nat, n: nat): nat
    decreases n
  {
    if n == 0 then 0 else (if transport(first) then 1 else 0) + Accepted(transport, first + 1, n - 1)
  }

  /** The drain shrinks the queue by exactly the number of accepted attempts. */
  lemma {:induction false} DrainLength<M>(q: seq<M>, transport: nat -> bool, first: nat)
    ensures |Drain(q, transport, first)| == |q| - Accepted(transport, first, |q|)
    ensures Accepted(transport, first, |q|) <= |q|
    decreases |q|
  {
    if |q| > 0 {
      DrainLength(q[1..], transport, first + 1);
    }
  }

  /**
   Draining a concatenation drains the two parts independently: the outcome
   for each message depends only on its own attempt, and the survivors keep
   their relative order.
   */
  lemma {:induction false} DrainAppend<M>(a: seq<M>, b: seq<M>, transport: nat -> bool, first: nat)
    ensures Drain(a + b, transport, first) == Drain(a, transport, first) + Drain(b, transport, first + |a|)
    decreases |a|
  {
    if |a| > 0 {
      assert (a + b)[1..] == a[1..] + b;
      DrainAppend(a[1..], b, transport, first + 1);
    } else {
      assert a + b == b;
    }
  }

  /** Every attempt in the window `first .. first + n - 1` was accepted. */
  predicate AllAccepted(transport: nat -> bool, first: nat, n: nat) {
    forall k :: first <= k < first + n ==> transport(k)
  }

  /** Every attempt in the window `first .. first + n - 1` failed. */
  predicate AllRejected(transport: nat -> bool, first: nat, n: nat) {
    forall k :: first <= k < first + n ==> !transport(k)
  }

  /** When every attempt succeeds the queue empties; when every attempt fails it is untouched. */
  lemma {:induction false} DrainExtremes<M>(q: seq<M>, transport: nat -> bool, first: nat)
    ensures AllAccepted(transport, first, |q|) ==> Drain(q, transport, first) == []
    ensures AllRejected(transport, first, |q|) ==> Drain(q, transport, first) == q
    decreases |q|
  {
    if |q| > 0 {
      DrainExtremes(q[1..], transport, first + 1);
      if AllRejected(transport, first, |q|) {
        assert !transport(first);
        assert [q[0]] + q[1..] == q;
      }
    }
  }

  /**
   The drain goes on past a failure: when only the first attempt fails, every
   later message is delivered and only the first stays cached.
   */
  lemma ContinuesPastFailure<M>(q: seq<M>, transport: nat -> bool, first: nat)
    requires |q| > 0
    requires !transport(first)
    requires AllAccepted(transport, first + 1, |q| - 1)
    ensures Drain(q, transport, first) == [q[0]]
  {
    DrainExtremes(q[1..], transport, first + 1);
  }

  /**
   The loop of the worker: walks the queue with an iterator, sends each cached
   message and removes it when the transport accepted it.
   */
  method DrainCache<M>(q: seq<M>, transport: nat -> bool, first: nat) returns (kept: seq<M>, sent: nat)
    ensures kept == Drain(q, transport, first)
    ensures sent == Accepted(transport, first, |q|)
    ensures |kept| == |q| - sent
  {
    kept := [];
    sent := 0;
    var i := 0;
    while i < |q|
      invariant 0 <= i <= |q|
      invariant kept == Drain(q[..i], transport, first)
      invariant sent == Accepted(transport, first, i)
    {
      DrainAppend(q[..i], [q[i]], transport, first);
      assert q[..i + 1] == q[..i] + [q[i]];
      AcceptedStep(transport, first, i);
      if transport(first + i) {
        sent := sent + 1;
      } else {
        kept := kept + [q[i]];
      }
      i := i + 1;
    }
    assert q[..i] == q;
    DrainLength(q, transport, first);
  }

  /** Extending the counted range by one attempt. */
  lemma {:induction false} AcceptedStep(transport: nat -> bool, first: nat, n: nat)
    ensures Accepted(transport, first, n + 1) == Accepted(transport, first, n) + (if transport(first + n) then 1 else 0)
    decreases n
  {
    if n > 0 {
      AcceptedStep(transport, first + 1, n - 1);
    }
  }
}

=== FILE: collect.dfy ===
/**
 `updateData`: every readable channel of every enabled component feeds its
 current value into the sliding value kept for its address; a missing entry
 is created with the kind its channel type calls for. The source fans this
 out in parallel; here it is a sequential fold in component and channel
 order.
 */
module Collect {
  import opened Types

  /** The channels of `chans` whose access mode allows reading, in order. */
  function ReadableChannels<S>(chans: seq<Channel<S>>): (r: seq<Channel<S>>)
    ensures |r| <= |chans|
    ensures forall k :: 0 <= k < |r| ==> Readable(r[k].mode)
    decreases |chans|
  {
    if |chans| == 0 then []
    else (if Readable(chans[0].mode) then [chans[0]] else []) + ReadableChannels(chans[1..])
  }

  /** The channels sampled in one cycle, in component order. */
  function Sampled<S>(comps: seq<Component<S>>): (r: seq<Channel<S>>)
    ensures forall k :: 0 <= k < |r| ==> Readable(r[k].mode)
    ensures (forall i :: 0 <= i < |comps| ==> !comps[i].enabled) ==> r == []
    decreases |comps|
  {
    if |comps| == 0 then []
    else
      assert forall i :: 0 <= i < |comps| - 1 ==> comps[1..][i] == comps[i + 1];
      (if comps[0].enabled then ReadableChannels(comps[0].channels) else []) + Sampled(comps[1..])
  }

  /** `ReadableChannels` keeps exactly the readable channels. */
  lemma {:induction false} ReadableChannelsExactly<S>(chans: seq<Channel<S>>)
    ensures forall k :: 0 <= k < |ReadableChannels(chans)| ==>
      ReadableChannels(chans)[k] in chans && Readable(ReadableChannels(chans)[k].mode)
    ensures forall j :: 0 <= j < |chans| && Readable(chans[j].mode) ==> chans[j] in ReadableChannels(chans)
    decreases |chans|
  {
    if |chans| > 0 {
      ReadableChannelsExactly(chans[1..]);
      var r := ReadableChannels(chans);
      var head := if Readable(chans[0].mode) then [chans[0]] else [];
      var rest := ReadableChannels(chans[1..]);
      assert r == head + rest;
      forall k | 0 <= k < |r|
        ensures r[k] in chans && Readable(r[k].mode)
      {
        if k >= |head| {
          assert r[k] == rest[k - |head|];
        }
      }
      forall j | 0 <= j < |chans| && Readable(chans[j].mode)
        ensures chans[j] in r
      {
        if j > 0 {
          assert chans[j] == chans[1..][j - 1];
          assert chans[j] in rest;
        }
      }
    }
  }

  /**
   A channel is sampled iff it is readable and belongs to an enabled
   component: every sampled channel is one, and every such channel is sampled.
   */
  lemma {:induction false} SampledExactly<S>(comps: seq<Component<S>>)
    ensures forall k :: 0 <= k < |Sampled(comps)| ==>
      Readable(Sampled(comps)[k].mode) &&
      exists i :: 0 <= i < |comps| && comps[i].enabled && Sampled(comps)[k] in comps[i].channels
    ensures forall i, j ::
      (0 <= i < |comps| && comps[i].enabled && 0 <= j < |comps[i].channels| && Readable(comps[i].channels[j].mode))
      ==> comps[i].channels[j] in Sampled(comps)
    decreases |comps|
  {
    if |comps| > 0 {
      SampledExactly(comps[1..]);
      ReadableChannelsExactly(comps[0].channels);
      var r := Sampled(comps);
      var head := if comps[0].enabled then ReadableChannels(comps[0].channels) else [];
      var rest := Sampled(comps[1..]);
      assert r == head + rest;
      forall k | 0 <= k < |r|
        ensures Readable(r[k].mode) && exists i :: 0 <= i < |comps| && comps[i].enabled && r[k] in comps[i].channels
      {
        if k < |head| {
          assert r[k] == head[k];
          assert comps[0].enabled && r[k] in comps[0].channels;
        } else {
          assert r[k] == rest[k - |head|];
          var i :| 0 <= i < |comps[1..]| && comps[1..][i].enabled && rest[k - |head|] in comps[1..][i].channels;
          assert comps[i + 1] == comps[1..][i];
        }
      }
      forall i, j | 0 <= i < |comps| && comps[i].enabled && 0 <= j < |comps[i].channels| && Readable(comps[i].channels[j].mode)
        ensures comps[i].channels[j] in r
      {
        if i > 0 {
          assert comps[i] == comps[1..][i - 1];
          assert comps[i].channels[j] in rest;
        } else {
          assert comps[i].channels[j] in head;
        }
      }
    }
  }

  /** The addresses of `chans`. */
  function Addresses<S>(chans: seq<Channel<S>>): set<ChannelAddress>
    decreases |chans|
  {
    if |chans| == 0 then {} else {chans[0].address} + Addresses(chans[1..])
  }

  /** The values of the channels with address `a`, in order. */
  function SamplesFor<S>(chans: seq<Channel<S>>, a: ChannelAddress): seq<S>
    decreases |chans|
  {
    if |chans| == 0 then []
    else (if chans[0].address == a then [chans[0].value] else []) + SamplesFor(chans[1..], a)
  }

  /** The type of the first channel with address `a`. */
  function FirstType<S>(chans: seq<Channel<S>>, a: ChannelAddress): OpenemsType
    requires a in Addresses(chans)
    decreases |chans|
  {
    if chans[0].address == a then chans[0].typ else FirstType(chans[1..], a)
  }

  /** Folds the samples `vs` into `sv`, oldest first. */
  function AddAll<SV, S>(add: (SV, S) -> SV, sv: SV, vs: seq<S>): SV
    decreases |vs|
  {
    if |vs| == 0 then sv else AddAll(add, add(sv, vs[0]), vs[1..])
  }

  /** Every channel's address is among the addresses. */
  lemma {:induction false} AddressIn<S>(chans: seq<Channel<S>>, i: int)
    requires 0 <= i < |chans|
    ensures chans[i].address in Addresses(chans)
    decreases |chans|
  {
    if i > 0 {
      AddressIn(chans[1..], i - 1);
    }
  }

  /**
   The kind address `a` has once `chans` is collected into `data`: the kind of
   the existing entry, else the one the type of its first channel calls for.
   */
  function ExpectedKind<SV, S>(data: map<ChannelAddress, Slot<SV>>, chans: seq<Channel<S>>, a: ChannelAddress): SlidingKind
    requires a in data || a in Addresses(chans)
  {
    if a in data then data[a].kind else KindFor(FirstType(chans, a))
  }

  /** The i-th channel fits the class of the sliding value its address ends up with. */
  predicate CastableAt<SV, S>(data: map<ChannelAddress, Slot<SV>>, chans: seq<Channel<S>>, i: int)
    requires 0 <= i < |chans|
  {
    AddressIn(chans, i);
    Castable(ExpectedKind(data, chans, chans[i].address), chans[i].typ)
  }

  /** True iff no channel of `chans` meets an entry of a class its type cannot be cast to. */
  predicate AllCastable<SV, S>(data: map<ChannelAddress, Slot<SV>>, chans: seq<Channel<S>>) {
    forall i :: 0 <= i < |chans| ==> CastableAt(data, chans, i)
  }

  /**
   The entry address `a` has once `chans` is collected into `data`: of the
   expected kind, holding the existing (or freshly created) sliding value
   with every sample of `a` folded in, in order.
   */
  function Expected<SV, S, J>(ops: SlidingOps<SV, S, J>, data: map<ChannelAddress, Slot<SV>>, chans: seq<Channel<S>>, a: ChannelAddress): Slot<SV>
    requires a in data || a in Addresses(chans)
  {
    var k := ExpectedKind(data, chans, a);
    var base := if a in data then data[a].sv else ops.create(k);
    Slot(k, AddAll(ops.add, base, SamplesFor(chans, a)))
  }

  /**
   One channel: get or create the sliding value for its address, then add the
   sample. An existing entry whose class does not fit the channel type makes
   the cast fail (`None`).
   */
  function Observe<SV, S, J>(ops: SlidingOps<SV, S, J>, data: map<ChannelAddress, Slot<SV>>, ch: Channel<S>): (r: Option<map<ChannelAddress, Slot<SV>>>)
    ensures r.None? <==> ch.address in data && !Castable(data[ch.address].kind, ch.typ)
    ensures r.Some? ==> r.value.Keys == data.Keys + {ch.address}
    ensures r.Some? ==> forall a :: a in data ==> r.value[a].kind == data[a].kind
    ensures r.Some? ==> forall a :: a in data && a != ch.address ==> r.value[a] == data[a]
  {
    if ch.address in data then
      var slot := data[ch.address];
      if Castable(slot.kind, ch.typ) then Some(data[ch.address := Slot(slot.kind, ops.add(slot.sv, ch.value))])
      else None
    else
      var k := KindFor(ch.typ);
      Some(data[ch.address := Slot(k, ops.add(ops.create(k), ch.value))])
  }

  /**
   Observes every channel of `chans` in order. Stops at the first failing
   cast, returning the entries updated so far and the failing address.
   Keys are never removed and existing entries keep their kind.
   */
  function ObserveAll<SV, S, J>(ops: SlidingOps<SV, S, J>, data: map<ChannelAddress, Slot<SV>>, chans: seq<Channel<S>>): (r: (map<ChannelAddress, Slot<SV>>, Option<ChannelAddress>))
    ensures data.Keys <= r.0.Keys <= data.Keys + Addresses(chans)
    ensures forall a :: a in data ==> r.0[a].kind == data[a].kind
    ensures r.1.Some? ==> r.1.value in r.0 && r.1.value in Addresses(chans)
    decreases |chans|
  {
    if |chans| == 0 then (data, None)
    else
      match Observe(ops, data, chans[0])
      case None => (data, Some(chans[0].address))
      case Some(next) => ObserveAll(ops, next, chans[1..])
  }

  /** One observation moves the head channel's sample into the map and changes no expectation. */
  lemma ObserveStep<SV, S, J>(ops: SlidingOps<SV, S, J>, data: map<ChannelAddress, Slot<SV>>, chans: seq<Channel<S>>)
    requires |chans| > 0
    requires Observe(ops, data, chans[0]).Some?
    ensures var next := Observe(ops, data, chans[0]).value;
      forall a :: (a in data || a in Addresses(chans)) <==> (a in next || a in Addresses(chans[1..]))
    ensures var next := Observe(ops, data, chans[0]).value;
      forall a :: a in data || a in Addresses(chans) ==> Expected(ops, next, chans[1..], a) == Expected(ops, data, chans, a)
  {
    var next := Observe(ops, data, chans[0]).value;
    var c := chans[0];
    var rest := chans[1..];
    forall a | a in data || a in Addresses(chans)
      ensures Expected(ops, next, rest, a) == Expected(ops, data, chans, a)
    {
      assert SamplesFor(chans, a) == (if c.address == a then [c.value] else []) + SamplesFor(rest, a);
      if a == c.address {
        var vs := SamplesFor(rest, a);
        assert ([c.value] + vs)[1..] == vs;
        if a in data {
          assert AddAll(ops.add, data[a].sv, [c.value] + vs) == AddAll(ops.add, ops.add(data[a].sv, c.value), vs);
        } else {
          var k := KindFor(c.typ);
          assert AddAll(ops.add, ops.create(k), [c.value] + vs) == AddAll(ops.add, ops.add(ops.create(k), c.value), vs);
        }
      } else {
        assert SamplesFor(chans, a) == SamplesFor(rest, a);
        if a !in data {
          assert FirstType(chans, a) == FirstType(rest, a);
        }
      }
    }
  }

  /** The head channel is castable iff its observation succeeds. */
  lemma CastableHead<SV, S, J>(ops: SlidingOps<SV, S, J>, data: map<ChannelAddress, Slot<SV>>, chans: seq<Channel<S>>)
    requires |chans| > 0
    ensures CastableAt(data, chans, 0) <==> Observe(ops, data, chans[0]).Some?
  {
    AddressIn(chans, 0);
    KindForInjectiveAndCastable(chans[0].typ, chans[0].typ);
  }

  /** After observing the head, the castability of every later channel is unchanged. */
  lemma CastableShift<SV, S, J>(ops: SlidingOps<SV, S, J>, data: map<ChannelAddress, Slot<SV>>, chans: seq<Channel<S>>)
    requires |chans| > 0
    requires Observe(ops, data, chans[0]).Some?
    ensures var next := Observe(ops, data, chans[0]).value;
      forall i :: 0 <= i < |chans| - 1 ==> (CastableAt(next, chans[1..], i) <==> CastableAt(data, chans, i + 1))
  {
    var next := Observe(ops, data, chans[0]).value;
    var rest := chans[1..];
    ObserveStep(ops, data, chans);
    forall i | 0 <= i < |rest|
      ensures CastableAt(next, rest, i) <==> CastableAt(data, chans, i + 1)
    {
      AddressIn(chans, i + 1);
      AddressIn(rest, i);
      assert rest[i] == chans[i + 1];
      assert Expected(ops, next, rest, rest[i].address).kind == ExpectedKind(next, rest, rest[i].address);
      assert Expected(ops, data, chans, rest[i].address).kind == ExpectedKind(data, chans, rest[i].address);
    }
  }

  /**
   Collection fails iff some channel meets an entry whose class its type
   cannot be cast to, judged against the kind its address ends up with.
   */
  lemma {:induction false} ObserveAllSucceeds<SV, S, J>(ops: SlidingOps<SV, S, J>, data: map<ChannelAddress, Slot<SV>>, chans: seq<Channel<S>>)
    ensures ObserveAll(ops, data, chans).1.None? <==> AllCastable(data, chans)
    decreases |chans|
  {
    if |chans| > 0 {
      CastableHead(ops, data, chans);
      if Observe(ops, data, chans[0]).Some? {
        var next := Observe(ops, data, chans[0]).value;
        var rest := chans[1..];
        CastableShift(ops, data, chans);
        ObserveAllSucceeds(ops, next, rest);
        if AllCastable(data, chans) {
          forall i | 0 <= i < |rest| ensures CastableAt(next, rest, i) {
            assert CastableAt(data, chans, i + 1);
          }
        }
        if AllCastable(next, rest) {
          forall i | 0 <= i < |chans| ensures CastableAt(data, chans, i) {
            if i > 0 {
              assert CastableAt(next, rest, i - 1);
            }
          }
        }
      }
    }
  }

  /**
   After a successful collection the map holds exactly the old addresses and
   the sampled ones, and each entry is the expected one: existing kind (or the
   first channel's), with every sample of that address added once, in order.
   */
  lemma {:induction false} ObserveAllContents<SV, S, J>(ops: SlidingOps<SV, S, J>, data: map<ChannelAddress, Slot<SV>>, chans: seq<Channel<S>>)
    requires ObserveAll(ops, data, chans).1.None?
    ensures ObserveAll(ops, data, chans).0.Keys == data.Keys + Addresses(chans)
    ensures forall a :: a in ObserveAll(ops, data, chans).0 ==>
      ObserveAll(ops, data, chans).0[a] == Expected(ops, data, chans, a)
    decreases |chans|
  {
    var r := ObserveAll(ops, data, chans).0;
    if |chans| == 0 {
      forall a | a in r ensures r[a] == Expected(ops, data, chans, a) {
        assert SamplesFor(chans, a) == [];
      }
    } else {
      var next := Observe(ops, data, chans[0]).value;
      ObserveStep(ops, data, chans);
      ObserveAllContents(ops, next, chans[1..]);
    }
  }
}

=== FILE: run.dfy ===
/**
 Runs of the worker: a sequence of cycles and `sendValuesOfAllChannelsOnce`
 calls, with the facts that hold over any number of them — the cycle count,
 how many flushes happen, which mode each flush uses, and the state
 invariant.
 */
module Runs {
  import opened Types
  import W = Worker
  import Timestamp

  datatype Input<S> = Tick(env: W.Env<S>) | SendAllOnce

  /** One input: a cycle of the worker, or the external all-values trigger. */
  function Apply<SV, S, J>(ops: SlidingOps<SV, S, J>, noOfCycles: int, s: W.Worker<SV, J>, input: Input<S>)
    : (W.Worker<SV, J>, W.Event<J>)
  {
    match input
    case Tick(env) => W.Step(ops, noOfCycles, s, env)
    case SendAllOnce => (W.SendValuesOfAllChannelsOnce(s), W.AllValuesRequested)
  }

  /** Applies the inputs in order; one event per input. */
  function Run<SV, S, J>(ops: SlidingOps<SV, S, J>, noOfCycles: int, s: W.Worker<SV, J>, inputs: seq<Input<S>>)
    : (r: (W.Worker<SV, J>, seq<W.Event<J>>))
    ensures |r.1| == |inputs|
    ensures W.Valid(noOfCycles, s) ==> W.Valid(noOfCycles, r.0)
    ensures s.data.Keys <= r.0.data.Keys
    ensures forall a :: a in s.data ==> r.0.data[a].kind == s.data[a].kind
    decreases |inputs|
  {
    if |inputs| == 0 then (s, [])
    else
      var (s1, e) := Apply(ops, noOfCycles, s, inputs[0]);
      var (s2, es) := Run(ops, noOfCycles, s1, inputs[1..]);
      (s2, [e] + es)
  }

  /** Cycles that were counted: collection succeeded. */
  function Ticks<J>(es: seq<W.Event<J>>): nat
    decreases |es|
  {
    if |es| == 0 then 0 else (if es[0].Waiting? || es[0].Flushed? then 1 else 0) + Ticks(es[1..])
  }

  function Flushes<J>(es: seq<W.Event<J>>): nat
    decreases |es|
  {
    if |es| == 0 then 0 else (if es[0].Flushed? then 1 else 0) + Flushes(es[1..])
  }

  /** Division with remainder is unique. */
  lemma DivModUnique(y: int, n: int, a: int, b: int)
    requires n > 0 && 0 <= b < n && y == a * n + b
    ensures y / n == a && y % n == b
  {
    var k := a - y / n;
    assert k * n == (y % n) - b;
    Timestamp.MulMono(k, n);
  }

  /**
   Tick counting: with `noOfCycles` at least one, every counted cycle moves
   the count up by one modulo `noOfCycles`, and a flush happens exactly when
   it wraps — after `t` counted cycles from count `c` there were
   `(c + t) / noOfCycles` flushes and the count is `(c + t) % noOfCycles`.
   */
  lemma RunCycleCount<SV, S, J>(ops: SlidingOps<SV, S, J>, noOfCycles: int, s: W.Worker<SV, J>, inputs: seq<Input<S>>)
    requires noOfCycles >= 1
    requires 0 <= s.cycleCount < noOfCycles
    ensures var (r, es) := Run(ops, noOfCycles, s, inputs);
      && r.cycleCount == (s.cycleCount + Ticks(es)) % noOfCycles
      && Flushes(es) == (s.cycleCount + Ticks(es)) / noOfCycles
  {
    var (r, es) := Run(ops, noOfCycles, s, inputs);
    RunCountBalance(ops, noOfCycles, s, inputs);
    DivModUnique(s.cycleCount + Ticks(es), noOfCycles, Flushes(es), r.cycleCount);
  }

  /**
   The balance behind `RunCycleCount`: every counted cycle adds one to the
   count, and every flush takes `noOfCycles` off it, so the count stays below
   `noOfCycles`.
   */
  lemma {:induction false} RunCountBalance<SV, S, J>(ops: SlidingOps<SV, S, J>, noOfCycles: int, s: W.Worker<SV, J>, inputs: seq<Input<S>>)
    requires noOfCycles >= 1
    requires 0 <= s.cycleCount < noOfCycles
    ensures var (r, es) := Run(ops, noOfCycles, s, inputs);
      && 0 <= r.cycleCount < noOfCycles
      && r.cycleCount + Flushes(es) * noOfCycles == s.cycleCount + Ticks(es)
    decreases |inputs|
  {
    var (r, es) := Run(ops, noOfCycles, s, inputs);
    if |inputs| > 0 {
      var (s1, e) := Apply(ops, noOfCycles, s, inputs[0]);
      var (r', es') := Run(ops, noOfCycles, s1, inputs[1..]);
      assert es == [e] + es' && r == r';
      assert es[1..] == es';
      ApplyCount(ops, noOfCycles, s, inputs[0]);
      RunCountBalance(ops, noOfCycles, s1, inputs[1..]);
      assert Ticks(es) == (if e.Waiting? || e.Flushed? then 1 else 0) + Ticks(es');
      assert Flushes(es) == (if e.Flushed? then 1 else 0) + Flushes(es');
      FlushesTimes(noOfCycles, Flushes(es), Flushes(es'), e.Flushed?);
    }
  }

  /** One more flush adds `n` to the flushed total. */
  lemma FlushesTimes(n: int, f: int, f1: int, flushed: bool)
    requires flushed ==> f == 1 + f1
    requires !flushed ==> f == f1
    ensures f * n == (if flushed then n else 0) + f1 * n
  {
  }

  /** One input moves the count by one if it is counted, and wraps it to zero on a flush. */
  lemma ApplyCount<SV, S, J>(ops: SlidingOps<SV, S, J>, noOfCycles: int, s: W.Worker<SV, J>, input: Input<S>)
    requires noOfCycles >= 1
    requires 0 <= s.cycleCount < noOfCycles
    ensures var (s1, e) := Apply(ops, noOfCycles, s, input);
      && 0 <= s1.cycleCount < noOfCycles
      && (e.Waiting? ==> s1.cycleCount == s.cycleCount + 1)
      && (e.Flushed? ==> s.cycleCount + 1 == noOfCycles && s1.cycleCount == 0)
      && (!(e.Waiting? || e.Flushed?) ==> s1.cycleCount == s.cycleCount)
  {
    if input.Tick? {
      W.StepGate(ops, noOfCycles, s, input.env);
    }
  }

  /**
   The mode the flag is in after the events `es`, starting from `f`: set to
   changed-only by the most recent flush, to all-values by the most recent
   trigger, whichever came last.
   */
  function LatestMode<J>(es: seq<W.Event<J>>, f: bool): bool
    decreases |es|
  {
    if |es| == 0 then f
    else if es[|es| - 1].AllValuesRequested? then false
    else if es[|es| - 1].Flushed? then true
    else LatestMode(es[..|es| - 1], f)
  }

  predicate SetsMode<J>(e: W.Event<J>) {
    e.AllValuesRequested? || e.Flushed?
  }

  lemma {:induction false} LatestModeAppend<J>(a: seq<W.Event<J>>, b: seq<W.Event<J>>, f: bool)
    ensures LatestMode(a + b, f) == LatestMode(b, LatestMode(a, f))
    decreases |b|
  {
    if |b| == 0 {
      assert a + b == a;
    } else {
      assert (a + b)[..|a + b| - 1] == a + b[..|b| - 1];
      LatestModeAppend(a, b[..|b| - 1], f);
    }
  }

  /** The mode is the one the last mode-setting event chose. */
  lemma {:induction false} LatestModeIsLastSetter<J>(es: seq<W.Event<J>>, f: bool, i: int)
    requires 0 <= i < |es| && SetsMode(es[i])
    requires forall k :: i < k < |es| ==> !SetsMode(es[k])
    ensures LatestMode(es, f) == es[i].Flushed?
    decreases |es|
  {
    if i < |es| - 1 {
      var init := es[..|es| - 1];
      assert forall k :: i < k < |init| ==> !SetsMode(init[k]) by {
        forall k | i < k < |init| ensures !SetsMode(init[k]) {
          assert init[k] == es[k];
        }
      }
      assert !SetsMode(es[|es| - 1]);
      LatestModeIsLastSetter(init, f, i);
      assert init[i] == es[i];
    }
  }

  /** With no mode-setting event the mode is where it started. */
  lemma {:induction false} LatestModeNoSetter<J>(es: seq<W.Event<J>>, f: bool)
    requires forall k :: 0 <= k < |es| ==> !SetsMode(es[k])
    ensures LatestMode(es, f) == f
    decreases |es|
  {
    if |es| > 0 {
      assert !SetsMode(es[|es| - 1]);
      LatestModeNoSetter(es[..|es| - 1], f);
    }
  }

  /**
   The mode flag over a run: each flush uses the mode chosen by the most
   recent flush or trigger before it (or the initial flag if there was none),
   and the flag after the run is the mode chosen last.
   */
  lemma {:induction false} RunModeFlags<SV, S, J>(ops: SlidingOps<SV, S, J>, noOfCycles: int, s: W.Worker<SV, J>, inputs: seq<Input<S>>)
    ensures var (r, es) := Run(ops, noOfCycles, s, inputs);
      && r.sendChangedValuesOnly == LatestMode(es, s.sendChangedValuesOnly)
      && forall i :: 0 <= i < |es| && es[i].Flushed? ==> es[i].changedOnly == LatestMode(es[..i], s.sendChangedValuesOnly)
    decreases |inputs|
  {
    var (r, es) := Run(ops, noOfCycles, s, inputs);
    var f := s.sendChangedValuesOnly;
    if |inputs| > 0 {
      var (s1, e) := Apply(ops, noOfCycles, s, inputs[0]);
      var (r', es') := Run(ops, noOfCycles, s1, inputs[1..]);
      assert es == [e] + es' && r == r';
      ApplyMode(ops, noOfCycles, s, inputs[0]);
      RunModeFlags(ops, noOfCycles, s1, inputs[1..]);
      LatestModeAppend([e], es', f);
      forall i | 0 <= i < |es| && es[i].Flushed?
        ensures es[i].changedOnly == LatestMode(es[..i], f)
      {
        if i == 0 {
          assert es[..0] == [];
        } else {
          assert es[i] == es'[i - 1];
          assert es[..i] == [e] + es'[..i - 1];
          LatestModeAppend([e], es'[..i - 1], f);
        }
      }
    }
  }

  /** One input sets the flag as its event says, and a flush uses the flag as it was. */
  lemma ApplyMode<SV, S, J>(ops: SlidingOps<SV, S, J>, noOfCycles: int, s: W.Worker<SV, J>, input: Input<S>)
    ensures var (s1, e) := Apply(ops, noOfCycles, s, input);
      && s1.sendChangedValuesOnly == LatestMode([e], s.sendChangedValuesOnly)
      && (e.Flushed? ==> e.changedOnly == s.sendChangedValuesOnly)
  {
    if input.Tick? {
      W.StepModeFlag(ops, noOfCycles, s, input.env);
    }
  }

  /** A new worker sends all values on its first flush, whatever happened before it. */
  lemma FirstFlushSendsAll<SV, S, J>(ops: SlidingOps<SV, S, J>, noOfCycles: int, inputs: seq<Input<S>>, i: int)
    requires var es := Run(ops, noOfCycles, W.Init(), inputs).1;
      0 <= i < |es| && es[i].Flushed? && forall k :: 0 <= k < i ==> !es[k].Flushed?
    ensures !Run(ops, noOfCycles, W.Init(), inputs).1[i].changedOnly
  {
    var es := Run(ops, noOfCycles, W.Init(), inputs).1;
    RunModeFlags(ops, noOfCycles, W.Init(), inputs);
    var pre := es[..i];
    if forall k :: 0 <= k < |pre| ==> !SetsMode(pre[k]) {
      LatestModeNoSetter(pre, false);
    } else {
      var j := LastSetter(pre);
      LatestModeIsLastSetter(pre, false, j);
      assert pre[j] == es[j];
    }
  }

  /**
   Between two flushes with no trigger in between, the second is a
   changed-only flush: all values go out at most once per trigger.
   */
  lemma FlushAfterFlushIsChangedOnly<SV, S, J>(ops: SlidingOps<SV, S, J>, noOfCycles: int, s: W.Worker<SV, J>, inputs: seq<Input<S>>, i: int, j: int)
    requires var es := Run(ops, noOfCycles, s, inputs).1;
      && 0 <= i < j < |es| && es[i].Flushed? && es[j].Flushed?
      && forall k :: i < k < j ==> !es[k].AllValuesRequested?
    ensures Run(ops, noOfCycles, s, inputs).1[j].changedOnly
  {
    var es := Run(ops, noOfCycles, s, inputs).1;
    RunModeFlags(ops, noOfCycles, s, inputs);
    var pre := es[..j];
    assert pre[i] == es[i];
    var last := LastSetter(pre);
    LatestModeIsLastSetter(pre, s.sendChangedValuesOnly, last);
    assert pre[last] == es[last];
  }

  /**
   After a trigger, the next flush sends all values, whatever the flag was.
   */
  lemma FlushAfterTriggerSendsAll<SV, S, J>(ops: SlidingOps<SV, S, J>, noOfCycles: int, s: W.Worker<SV, J>, inputs: seq<Input<S>>, i: int, j: int)
    requires var es := Run(ops, noOfCycles, s, inputs).1;
      && 0 <= i < j < |es| && es[i].AllValuesRequested? && es[j].Flushed?
      && forall k :: i < k < j ==> !es[k].Flushed?
    ensures !Run(ops, noOfCycles, s, inputs).1[j].changedOnly
  {
    var es := Run(ops, noOfCycles, s, inputs).1;
    RunModeFlags(ops, noOfCycles, s, inputs);
    var pre := es[..j];
    assert pre[i] == es[i];
    var last := LastSetter(pre);
    LatestModeIsLastSetter(pre, s.sendChangedValuesOnly, last);
    assert pre[last] == es[last];
  }

  /** The index of the last mode-setting event. */
  function LastSetter<J>(es: seq<W.Event<J>>): (j: int)
    requires exists k :: 0 <= k < |es| && SetsMode(es[k])
    ensures 0 <= j < |es| && SetsMode(es[j])
    ensures forall k :: j < k < |es| ==> !SetsMode(es[k])
    decreases |es|
  {
    if SetsMode(es[|es| - 1]) then |es| - 1
    else
      var init := es[..|es| - 1];
      var k :| 0 <= k < |es| && SetsMode(es[k]);
      assert init[k] == es[k];
      var j := LastSetter(init);
      assert init[j] == es[j];
      j
  }

  /**
   Over any run from a new worker the cache never holds more than 1000
   messages, the count stays below `noOfCycles`, and the back-off counter is
   either unset or exactly one flush's worth above `noOfCycles`.
   */
  lemma RunFromInitIsValid<SV, S, J>(ops: SlidingOps<SV, S, J>, noOfCycles: int, inputs: seq<Input<S>>)
    ensures var r := Run(ops, noOfCycles, W.Init(), inputs).0;
      && |r.unsent| <= 1000
      && 0 <= r.cycleCount
      && (noOfCycles >= 1 ==> r.cycleCount < noOfCycles)
      && (r.increasedNoOfCycles.None? ||
          r.increasedNoOfCycles == Some(if noOfCycles < 60 then noOfCycles + 1 else noOfCycles))
  {
    assert W.Valid(noOfCycles, W.Init<SV, J>());
  }
}

=== FILE: snapshot.dfy ===
/**
 Building the values of one flush from the worker's data map: in
 changed-only mode each sliding value is asked for its changed value and
 only non-null answers are sent; in all-values mode every address is sent
 with its current value. Asking consumes the answer, so the data map is
 returned with every sliding value as it is afterwards.
 */
module Snapshot {
  import opened Types

  /** What asking the sliding value of one entry yields, and the entry afterwards. */
  function Ask<SV, S, J>(ops: SlidingOps<SV, S, J>, slot: Slot<SV>, changedOnly: bool): (Option<J>, Slot<SV>) {
    if changedOnly then
      var (v, sv) := ops.changed(slot.sv); (v, Slot(slot.kind, sv))
    else
      var (v, sv) := ops.value(slot.sv); (Some(v), Slot(slot.kind, sv))
  }

  /**
   The values a flush of `data` sends: in changed-only mode exactly the
   addresses whose changed value is non-null, each mapped to that value; in
   all-values mode every address, mapped to its current value.
   */
  ghost predicate SendsFor<SV, S, J>(ops: SlidingOps<SV, S, J>, data: map<ChannelAddress, Slot<SV>>, changedOnly: bool, values: map<ChannelAddress, J>) {
    if changedOnly then
      && (forall a :: a in values <==> a in data && ops.changed(data[a].sv).0.Some?)
      && (forall a :: a in values ==> values[a] == ops.changed(data[a].sv).0.value)
    else
      && values.Keys == data.Keys
      && (forall a :: a in values ==> values[a] == ops.value(data[a].sv).0)
  }

  /** The values to send and the data map after every entry was asked once. */
  function Snapshot<SV, S, J>(ops: SlidingOps<SV, S, J>, data: map<ChannelAddress, Slot<SV>>, changedOnly: bool)
    : (r: (map<ChannelAddress, J>, map<ChannelAddress, Slot<SV>>))
    ensures SendsFor(ops, data, changedOnly, r.0)
    ensures r.1.Keys == data.Keys
    ensures forall a :: a in data ==> r.1[a].kind == data[a].kind
  {
    (map a | a in data && Ask(ops, data[a], changedOnly).0.Some? :: Ask(ops, data[a], changedOnly).0.value,
     map a | a in data :: Ask(ops, data[a], changedOnly).1)
  }

  /**
   The loop of the worker over the data map's entries, in any order. In
   changed-only mode the result holds exactly the addresses whose changed
   value is non-null, each mapped to that value; in all-values mode it holds
   every address, mapped to its current value. No other key appears.
   */
  method BuildSnapshot<SV, S, J>(ops: SlidingOps<SV, S, J>, data: map<ChannelAddress, Slot<SV>>, changedOnly: bool)
    returns (values: map<ChannelAddress, J>, updated: map<ChannelAddress, Slot<SV>>)
    ensures changedOnly ==> forall a :: a in values <==> a in data && ops.changed(data[a].sv).0.Some?
    ensures changedOnly ==> forall a :: a in values ==> values[a] == ops.changed(data[a].sv).0.value
    ensures !changedOnly ==> values.Keys == data.Keys
    ensures !changedOnly ==> forall a :: a in values ==> values[a] == ops.value(data[a].sv).0
    ensures updated.Keys == data.Keys
    ensures forall a :: a in updated ==> updated[a] == Ask(ops, data[a], changedOnly).1
    ensures (values, updated) == Snapshot(ops, data, changedOnly)
  {
    values := map[];
    updated := data;
    var todo := data.Keys;
    while todo != {}
      invariant todo <= data.Keys
      invariant updated.Keys == data.Keys
      invariant forall a :: a in todo ==> updated[a] == data[a]
      invariant forall a :: a in data && a !in todo ==> updated[a] == Ask(ops, data[a], changedOnly).1
      invariant forall a :: a in values <==> a in data && a !in todo && Ask(ops, data[a], changedOnly).0.Some?
      invariant forall a :: a in values ==> values[a] == Ask(ops, data[a], changedOnly).0.value
      decreases todo
    {
      var a :| a in todo;
      var (v, slot) := Ask(ops, updated[a], changedOnly);
      if v.Some? {
        values := values[a := v.value];
      }
      updated := updated[a := slot];
      todo := todo - {a};
    }
    var snap := Snapshot(ops, data, changedOnly);
    assert values == snap.0;
    assert updated == snap.1;
  }

  /**
   An all-values snapshot of a non-empty map is never empty, so a send is
   attempted unless the cycle time is zero.
   */
  lemma AllValuesNeverEmpty<SV, S, J>(ops: SlidingOps<SV, S, J>, data: map<ChannelAddress, Slot<SV>>)
    ensures Snapshot(ops, data, false).0.Keys == data.Keys
    ensures |Snapshot(ops, data, false).0| == |data|
  {
    var values := Snapshot(ops, data, false).0;
    assert values.Keys == data.Keys;
    assert |values.Keys| == |data.Keys|;
  }

  /** A changed-only snapshot sends a subset of the addresses an all-values one sends. */
  lemma ChangedOnlyWithinAll<SV, S, J>(ops: SlidingOps<SV, S, J>, data: map<ChannelAddress, Slot<SV>>)
    ensures Snapshot(ops, data, true).0.Keys <= Snapshot(ops, data, false).0.Keys
    ensures |Snapshot(ops, data, true).0| <= |Snapshot(ops, data, false).0|
  {
    var c := Snapshot(ops, data, true).0.Keys;
    var a := Snapshot(ops, data, false).0.Keys;
    assert c <= a;
    SubsetCard(c, a);
  }

  lemma SubsetCard<T>(x: set<T>, y: set<T>)
    requires x <= y
    ensures |x| <= |y|
  {
    assert y == x + (y - x);
  }
}

=== FILE: timestamp.dfy ===
/**
 The flush timestamp: the current time in milliseconds rounded to a multiple
 of the cycle time, computed as `now / cycleTime * cycleTime` with Java's
 `long` division, which truncates toward zero.
 */
module Timestamp {

  function Abs(x: int): nat {
    if x < 0 then -x else x
  }

  /** Java integer division: the quotient of the magnitudes, negated when the signs differ. */
  function JavaDiv(a: int, b: int): int
    requires b != 0
  {
    var m := Abs(a) / Abs(b);
    if (a < 0) == (b < 0) then m else -m
  }

  /**
   `now / cycleTime * cycleTime`; the worker never calls it with a zero cycle
   time. In Java's `long` arithmetic `Long.MIN_VALUE / -1` overflows, but the
   product wraps back to `Long.MIN_VALUE`, which is also what this unbounded
   formula gives, so the result agrees for every clock value.
   */
  function Truncate(now: int, cycleTime: int): (r: int)
    requires cycleTime != 0
    ensures now >= 0 ==> r >= 0
    ensures now <= 0 ==> r <= 0
  {
    JavaDivTimesSign(now, cycleTime);
    JavaDiv(now, cycleTime) * cycleTime
  }

  /**
   For a non-negative clock and any non-zero cycle time, the timestamp is a
   multiple of the cycle time, not after `now`, and less than one cycle
   before it.
   */
  lemma TruncateAligns(now: int, cycleTime: int)
    requires now >= 0
    requires cycleTime != 0
    ensures Truncate(now, cycleTime) % Abs(cycleTime) == 0
    ensures 0 <= Truncate(now, cycleTime) <= now
    ensures now - Truncate(now, cycleTime) < Abs(cycleTime)
  {
    var c := Abs(cycleTime);
    var m := now / c;
    TruncateMagnitude(now, cycleTime);
    ModMultiple(m, c);
  }

  /** With a non-negative clock, truncation is the Euclidean quotient times the cycle's magnitude. */
  lemma TruncateMagnitude(now: int, cycleTime: int)
    requires now >= 0
    requires cycleTime != 0
    ensures Truncate(now, cycleTime) == (now / Abs(cycleTime)) * Abs(cycleTime)
  {
    var m := now / Abs(cycleTime);
    if cycleTime < 0 {
      assert JavaDiv(now, cycleTime) == -m;
      assert (-m) * cycleTime == m * (-cycleTime);
    }
  }

  /**
   For any non-zero cycle time the timestamp is the latest multiple of the
   cycle time not after `now`: no multiple lies strictly between the two.
   */
  lemma TruncateIsLatestMultiple(now: int, cycleTime: int, t: int)
    requires now >= 0 && cycleTime != 0
    requires t % Abs(cycleTime) == 0 && t <= now
    ensures t <= Truncate(now, cycleTime)
  {
    var c := Abs(cycleTime);
    TruncateAligns(now, cycleTime);
    var ts := Truncate(now, cycleTime);
    var k := t / c;
    var j := now / c;
    TruncateMagnitude(now, cycleTime);
    assert ts == j * c;
    assert t == k * c;
    assert (k - j) * c == t - ts;
    MulMono(k - j, c);
  }

  /**
   A clock before the epoch is rounded toward zero, that is upward: the
   timestamp lies between `now` and zero, less than one cycle after `now`.
   */
  lemma TruncateNegativeRoundsUp(now: int, cycleTime: int)
    requires now < 0
    requires cycleTime != 0
    ensures now <= Truncate(now, cycleTime) <= 0
    ensures Truncate(now, cycleTime) - now < Abs(cycleTime)
    ensures Truncate(now, cycleTime) == -Truncate(-now, cycleTime)
  {
    assert Abs(now) == Abs(-now);
    var d := JavaDiv(-now, cycleTime);
    assert JavaDiv(now, cycleTime) == -d;
    assert (-d) * cycleTime == -(d * cycleTime);
    TruncateAligns(-now, cycleTime);
  }

  /** Multiplying the Java quotient back by the divisor keeps the dividend's sign. */
  lemma JavaDivTimesSign(a: int, b: int)
    requires b != 0
    ensures a >= 0 ==> JavaDiv(a, b) * b >= 0
    ensures a <= 0 ==> JavaDiv(a, b) * b <= 0
  {
    var m := Abs(a) / Abs(b);
    if (a < 0) == (b < 0) {
      assert JavaDiv(a, b) == m;
      SignOfProduct(m, b);
    } else {
      assert JavaDiv(a, b) == -m;
      SignOfProduct(-m, b);
    }
  }

  /** The sign of a product. */
  lemma SignOfProduct(a: int, b: int)
    ensures (a >= 0 && b >= 0) || (a <= 0 && b <= 0) ==> a * b >= 0
    ensures (a >= 0 && b <= 0) || (a <= 0 && b >= 0) ==> a * b <= 0
  {
  }

  lemma MulMono(k: int, c: int)
    requires c > 0
    ensures k >= 1 ==> k * c >= c
    ensures k <= -1 ==> k * c <= -c
  {
  }

  lemma ModMultiple(m: int, c: int)
    requires c > 0
    ensures (m * c) % c == 0
  {
    var x := m * c;
    var k := m - x / c;
    assert k * c == x - (x / c) * c;
    MulMono(k, c);
  }
}

=== FILE: types.dfy ===
/**
 The vocabulary of the backend uplink: channel addresses and types, the kinds
 of sliding value the worker keeps per channel, the channels and components it
 samples, and the outbound timestamped data message.
 */
module Types {

  datatype Option<+T> = None | Some(value: T)

  /** `component.channel`, the key of every aggregated value. */
  datatype ChannelAddress = ChannelAddress(component: string, channel: string)

  datatype AccessMode = ReadOnly | ReadWrite | WriteOnly

  /** The value types a channel can declare. */
  datatype OpenemsType = Boolean | Short | Integer | Long | Float | Double | String | Enum

  /** The class of sliding value kept for a channel; `Latest` remembers its type. */
  datatype SlidingKind =
    | IntegerKind
    | DoubleKind
    | FloatKind
    | LongKind
    | ShortKind
    | Latest(latestType: OpenemsType)

  /** Types whose samples are kept by a `LatestSlidingValue`. */
  predicate IsLatestType(t: OpenemsType) {
    t == Boolean || t == String || t == Enum
  }

  /** The kind of sliding value created for a channel of type `t` on first sight. */
  function KindFor(t: OpenemsType): (k: SlidingKind)
    ensures k.Latest? <==> IsLatestType(t)
    ensures k.Latest? ==> k.latestType == t
    ensures Castable(k, t)
  {
    match t
    case Integer => IntegerKind
    case Boolean => Latest(Boolean)
    case Double => DoubleKind
    case Float => FloatKind
    case Long => LongKind
    case Short => ShortKind
    case String => Latest(String)
    case Enum => Latest(Enum)
  }

  /**
   True iff a sliding value of kind `k` can be cast to the class that the
   `addValue` dispatch for a channel of type `t` expects. All three latest
   types share one class, so any `Latest` kind accepts any of them.
   */
  predicate Castable(k: SlidingKind, t: OpenemsType) {
    match t
    case Integer => k == IntegerKind
    case Double => k == DoubleKind
    case Float => k == FloatKind
    case Long => k == LongKind
    case Short => k == ShortKind
    case Boolean => k.Latest?
    case String => k.Latest?
    case Enum => k.Latest?
  }

  /** Distinct channel types get distinct kinds, and each accepts its own type. */
  lemma KindForInjectiveAndCastable(t: OpenemsType, u: OpenemsType)
    ensures KindFor(t) == KindFor(u) <==> t == u
    ensures Castable(KindFor(t), t)
    ensures Castable(KindFor(t), u) <==> (t == u || (IsLatestType(t) && IsLatestType(u)))
  {
  }

  /** Only read-only and read-write channels are sampled. */
  predicate Readable(m: AccessMode) {
    m == ReadOnly || m == ReadWrite
  }

  /** One channel as seen during a tick: its current value is `value`. */
  datatype Channel<S> = Channel(address: ChannelAddress, mode: AccessMode, typ: OpenemsType, value: S)

  datatype Component<S> = Component(enabled: bool, channels: seq<Channel<S>>)

  /**
   The abstract interface of the sliding value family: `create` builds the
   value for a kind, `add` folds in one sample, `value` reports the current
   value and `changed` reports it only if it changed since it was last
   reported. Both getters return the sliding value as it is afterwards.
   */
  datatype SlidingOps<!SV, -S, J> = SlidingOps(
    create: SlidingKind -> SV,
    add: (SV, S) -> SV,
    value: SV -> (J, SV),
    changed: SV -> (Option<J>, SV))

  /** One entry of the worker's data map: the kind fixed at creation and the value. */
  datatype Slot<SV> = Slot(kind: SlidingKind, sv: SV)

  /** A timestamped data notification. */
  datatype Msg<J> = Msg(timestamp: int, values: map<ChannelAddress, J>)
}

=== FILE: worker.dfy ===
/**
 The backend worker: one `Step` is one run of `forever()`. It collects the
 channel values, counts the cycle, and every `noOfCycles` cycles builds a
 timestamped message, tries to send it, caches it on failure and otherwise
 retries the cached messages.

 The clock reading, the cycle time and the transport outcomes are inputs of
 the step (`Env`); the configured `noOfCycles` is a parameter.
 */
module Worker {
  import opened Types
  import Collect
  import Snapshot
  import UnsentCache
  import Backoff
  import Timestamp

  datatype Worker<SV, J> = Worker(
    cycleCount: int,
    increasedNoOfCycles: Option<int>,
    sendChangedValuesOnly: bool,
    unsent: seq<Msg<J>>,
    data: map<ChannelAddress, Slot<SV>>)

  /** A freshly constructed worker: no data, nothing cached, first flush sends all values. */
  function Init<SV, J>(): (r: Worker<SV, J>)
    ensures forall noOfCycles :: Valid(noOfCycles, r)
    ensures !r.sendChangedValuesOnly && |r.unsent| == 0 && |r.data| == 0
  {
    Worker(0, None, false, [], map[])
  }

  /**
   What one cycle sees of the outside: the components and their channels,
   the wall clock in milliseconds, the cycle time, and the result of the
   k-th `sendMessage` call of this cycle as `transport(k)`.
   */
  datatype Env<S> = Env(components: seq<Component<S>>, now: int, cycleTime: int, transport: nat -> bool)

  datatype Outcome<J> =
    | NothingToSend       // no values: only the cache was drained
    | Sent(msg: Msg<J>)   // accepted: the cache was drained after it
    | Cached(msg: Msg<J>) // rejected: queued for later
    | ZeroCycleTime       // the timestamp division by zero threw

  datatype Event<J> =
    | CastFailed(address: ChannelAddress)  // collection threw; the cycle was not counted
    | Waiting                              // counted, no flush due
    | Flushed(changedOnly: bool, outcome: Outcome<J>)
    | AllValuesRequested                   // `sendValuesOfAllChannelsOnce`

  /** The state invariant kept between cycles. */
  predicate Valid<SV, J>(noOfCycles: int, s: Worker<SV, J>) {
    && 0 <= s.cycleCount
    && (s.cycleCount == 0 || s.cycleCount < noOfCycles)
    && |s.unsent| <= UnsentCache.MaxCachedMessages
    && (s.increasedNoOfCycles.None? || s.increasedNoOfCycles == Some(Backoff.BackedOff(noOfCycles)))
  }

  /** The data map after `updateData`, and the address whose cast failed, if any. */
  function Collected<SV, S, J>(ops: SlidingOps<SV, S, J>, s: Worker<SV, J>, env: Env<S>)
    : (map<ChannelAddress, Slot<SV>>, Option<ChannelAddress>)
  {
    Collect.ObserveAll(ops, s.data, Collect.Sampled(env.components))
  }

  /**
   The sending half of a flush, given the values to send and the worker with
   count, flag and data already updated: with no values only the cache is
   drained; otherwise the clock is truncated (a zero cycle time throws), the
   back-off is reset and the message sent, then either the cache is drained
   or the back-off raised and the message cached.
   */
  function Deliver<SV, S, J>(noOfCycles: int, s: Worker<SV, J>, values: map<ChannelAddress, J>, env: Env<S>)
    : (r: (Worker<SV, J>, Outcome<J>))
    ensures r.0.cycleCount == s.cycleCount
    ensures r.0.sendChangedValuesOnly == s.sendChangedValuesOnly
    ensures r.0.data == s.data
    ensures Valid(noOfCycles, s) ==> Valid(noOfCycles, r.0)
  {
    if |values| == 0 then
      (s.(unsent := UnsentCache.Drain(s.unsent, env.transport, 0)), NothingToSend)
    else if env.cycleTime == 0 then
      (s, ZeroCycleTime)
    else
      var msg := Msg(Timestamp.Truncate(env.now, env.cycleTime), values);
      var reset := Backoff.ResetNoOfCycles();
      if env.transport(0) then
        (s.(increasedNoOfCycles := reset, unsent := UnsentCache.Drain(s.unsent, env.transport, 1)), Sent(msg))
      else
        Backoff.FailedSendBacksOffOnce(noOfCycles);
        (s.(increasedNoOfCycles := Backoff.IncreaseNoOfCycles(reset, noOfCycles),
            unsent := UnsentCache.Push(s.unsent, msg)),
         Cached(msg))
  }

  /** One run of `forever()`. */
  function Step<SV, S, J>(ops: SlidingOps<SV, S, J>, noOfCycles: int, s: Worker<SV, J>, env: Env<S>)
    : (r: (Worker<SV, J>, Event<J>))
    ensures Valid(noOfCycles, s) ==> Valid(noOfCycles, r.0)
    ensures s.data.Keys <= r.0.data.Keys
    ensures forall a :: a in s.data ==> r.0.data[a].kind == s.data[a].kind
  {
    var (collected, failure) := Collected(ops, s, env);
    if failure.Some? then
      (s.(data := collected), CastFailed(failure.value))
    else if s.cycleCount + 1 < noOfCycles then
      (s.(cycleCount := s.cycleCount + 1, data := collected), Waiting)
    else
      var changedOnly := s.sendChangedValuesOnly;
      var (values, asked) := Snapshot.Snapshot(ops, collected, changedOnly);
      var (r, outcome) := Deliver(noOfCycles, s.(cycleCount := 0, sendChangedValuesOnly := true, data := asked), values, env);
      (r, Flushed(changedOnly, outcome))
  }

  /** `sendValuesOfAllChannelsOnce`: the next flush sends every value. */
  function SendValuesOfAllChannelsOnce<SV, J>(s: Worker<SV, J>): (r: Worker<SV, J>)
    ensures !r.sendChangedValuesOnly
    ensures r.cycleCount == s.cycleCount && r.increasedNoOfCycles == s.increasedNoOfCycles
    ensures r.unsent == s.unsent && r.data == s.data
    ensures forall noOfCycles :: Valid(noOfCycles, s) ==> Valid(noOfCycles, r)
  {
    s.(sendChangedValuesOnly := false)
  }

  /**
   The flush gate: a cycle whose collection succeeds is counted; below
   `noOfCycles` only the count and the data change, otherwise the count
   restarts at zero and a flush happens. A failed collection changes
   nothing but the data.
   */
  lemma StepGate<SV, S, J>(ops: SlidingOps<SV, S, J>, noOfCycles: int, s: Worker<SV, J>, env: Env<S>)
    ensures var (r, e) := Step(ops, noOfCycles, s, env);
      var ok := Collect.AllCastable(s.data, Collect.Sampled(env.components));
      && (e.CastFailed? <==> !ok)
      && (e.Waiting? <==> ok && s.cycleCount + 1 < noOfCycles)
      && (e.Flushed? <==> ok && s.cycleCount + 1 >= noOfCycles)
      && (e.CastFailed? ==> r == s.(data := r.data))
      && (e.Waiting? ==> r == s.(cycleCount := s.cycleCount + 1, data := r.data))
      && (e.Flushed? ==> r.cycleCount == 0)
  {
    Collect.ObserveAllSucceeds(ops, s.data, Collect.Sampled(env.components));
  }

  /**
   The worker's data after a step: the collected map, and after a flush the
   collected map with every entry as asking it left it. Samples are merged
   into the worker's own entries and stay there across the waiting cycles.
   */
  lemma StepData<SV, S, J>(ops: SlidingOps<SV, S, J>, noOfCycles: int, s: Worker<SV, J>, env: Env<S>)
    ensures var (r, e) := Step(ops, noOfCycles, s, env);
      var collected := Collected(ops, s, env).0;
      && (!e.Flushed? ==> r.data == collected)
      && (e.Flushed? ==> r.data == Snapshot.Snapshot(ops, collected, s.sendChangedValuesOnly).1)
  {
  }

  /**
   A successful collection keeps every old address and adds exactly the
   addresses of the sampled channels, with the entry each is expected to
   have. The worker keeps exactly those entries: unchanged on a waiting
   cycle, and as asking left them on a flush.
   */
  lemma StepCollects<SV, S, J>(ops: SlidingOps<SV, S, J>, noOfCycles: int, s: Worker<SV, J>, env: Env<S>)
    requires Collect.AllCastable(s.data, Collect.Sampled(env.components))
    ensures var chans := Collect.Sampled(env.components);
      var collected := Collected(ops, s, env).0;
      && collected.Keys == s.data.Keys + Collect.Addresses(chans)
      && (forall a :: a in collected ==> collected[a] == Collect.Expected(ops, s.data, chans, a))
    ensures var chans := Collect.Sampled(env.components);
      var (r, e) := Step(ops, noOfCycles, s, env);
      && r.data.Keys == s.data.Keys + Collect.Addresses(chans)
      && (e.Waiting? ==> forall a :: a in r.data ==> r.data[a] == Collect.Expected(ops, s.data, chans, a))
      && (e.Flushed? ==> forall a :: a in r.data ==>
            r.data[a] == Snapshot.Ask(ops, Collect.Expected(ops, s.data, chans, a), s.sendChangedValuesOnly).1)
  {
    Collect.ObserveAllSucceeds(ops, s.data, Collect.Sampled(env.components));
    Collect.ObserveAllContents(ops, s.data, Collect.Sampled(env.components));
    StepGate(ops, noOfCycles, s, env);
    StepData(ops, noOfCycles, s, env);
  }

  /**
   The mode flag: a flush uses the flag as it was and leaves it `true`; no
   other step touches it.
   */
  lemma StepModeFlag<SV, S, J>(ops: SlidingOps<SV, S, J>, noOfCycles: int, s: Worker<SV, J>, env: Env<S>)
    ensures var (r, e) := Step(ops, noOfCycles, s, env);
      && (e.Flushed? ==> e.changedOnly == s.sendChangedValuesOnly && r.sendChangedValuesOnly)
      && (!e.Flushed? ==> r.sendChangedValuesOnly == s.sendChangedValuesOnly)
  {
  }

  /**
   What `Deliver` sends: the values as given, stamped with the truncated
   clock. The message counts as sent exactly when the first `sendMessage`
   call returned true, and is cached exactly when it returned false.
   */
  lemma DeliverMessage<SV, S, J>(noOfCycles: int, s: Worker<SV, J>, values: map<ChannelAddress, J>, env: Env<S>)
    ensures var o := Deliver(noOfCycles, s, values, env).1;
      && (o.NothingToSend? <==> |values| == 0)
      && (o.ZeroCycleTime? <==> |values| > 0 && env.cycleTime == 0)
      && (o.Sent? <==> |values| > 0 && env.cycleTime != 0 && env.transport(0))
      && (o.Cached? <==> |values| > 0 && env.cycleTime != 0 && !env.transport(0))
      && ((o.Sent? || o.Cached?) ==>
            && o.msg.values == values
            && env.cycleTime != 0
            && o.msg.timestamp == Timestamp.Truncate(env.now, env.cycleTime))
      && ((o.Sent? || o.Cached?) && env.now >= 0 ==>
            && o.msg.timestamp % Timestamp.Abs(env.cycleTime) == 0
            && 0 <= env.now - o.msg.timestamp < Timestamp.Abs(env.cycleTime))
  {
    if env.cycleTime != 0 && env.now >= 0 {
      Timestamp.TruncateAligns(env.now, env.cycleTime);
    }
  }

  /**
   A flush sends the snapshot of the collected data in the mode the flag
   chose, stamped with the clock truncated to the cycle time; it sends
   nothing exactly when that snapshot is empty, and the message is cached
   exactly when the transport rejected it.
   */
  lemma StepMessage<SV, S, J>(ops: SlidingOps<SV, S, J>, noOfCycles: int, s: Worker<SV, J>, env: Env<S>)
    requires Step(ops, noOfCycles, s, env).1.Flushed?
    ensures var e := Step(ops, noOfCycles, s, env).1;
      var values := Snapshot.Snapshot(ops, Collected(ops, s, env).0, s.sendChangedValuesOnly).0;
      && (e.outcome.NothingToSend? <==> |values| == 0)
      && (e.outcome.ZeroCycleTime? <==> |values| > 0 && env.cycleTime == 0)
      && (e.outcome.Sent? <==> |values| > 0 && env.cycleTime != 0 && env.transport(0))
      && (e.outcome.Cached? <==> |values| > 0 && env.cycleTime != 0 && !env.transport(0))
      && ((e.outcome.Sent? || e.outcome.Cached?) ==>
            && e.outcome.msg.values == values
            && env.cycleTime != 0
            && e.outcome.msg.timestamp == Timestamp.Truncate(env.now, env.cycleTime))
      && ((e.outcome.Sent? || e.outcome.Cached?) && env.now >= 0 ==>
            && e.outcome.msg.timestamp % Timestamp.Abs(env.cycleTime) == 0
            && 0 <= env.now - e.outcome.msg.timestamp < Timestamp.Abs(env.cycleTime))
  {
    var collected := Collected(ops, s, env).0;
    var (values, asked) := Snapshot.Snapshot(ops, collected, s.sendChangedValuesOnly);
    DeliverMessage(noOfCycles, s.(cycleCount := 0, sendChangedValuesOnly := true, data := asked), values, env);
  }

  /** The back-off as `Deliver` leaves it. */
  lemma DeliverBackoff<SV, S, J>(noOfCycles: int, s: Worker<SV, J>, values: map<ChannelAddress, J>, env: Env<S>)
    ensures var (r, o) := Deliver(noOfCycles, s, values, env);
      && (o.Sent? ==> r.increasedNoOfCycles == None)
      && (o.Cached? ==> r.increasedNoOfCycles == Some(if noOfCycles < 60 then noOfCycles + 1 else noOfCycles))
      && (!(o.Sent? || o.Cached?) ==> r.increasedNoOfCycles == s.increasedNoOfCycles)
  {
  }

  /**
   Back-off: an accepted message clears the counter, a rejected one leaves
   it one above `noOfCycles` (unless that is already 60 or more), and every
   other step leaves it alone.
   */
  lemma StepBackoff<SV, S, J>(ops: SlidingOps<SV, S, J>, noOfCycles: int, s: Worker<SV, J>, env: Env<S>)
    ensures var (r, e) := Step(ops, noOfCycles, s, env);
      && (e.Flushed? && e.outcome.Sent? ==> r.increasedNoOfCycles == None)
      && (e.Flushed? && e.outcome.Cached? ==>
            r.increasedNoOfCycles == Some(if noOfCycles < 60 then noOfCycles + 1 else noOfCycles))
      && (!(e.Flushed? && (e.outcome.Sent? || e.outcome.Cached?)) ==>
            r.increasedNoOfCycles == s.increasedNoOfCycles)
  {
    var (collected, failure) := Collected(ops, s, env);
    if failure.None? && s.cycleCount + 1 >= noOfCycles {
      var (values, asked) := Snapshot.Snapshot(ops, collected, s.sendChangedValuesOnly);
      DeliverBackoff(noOfCycles, s.(cycleCount := 0, sendChangedValuesOnly := true, data := asked), values, env);
    }
  }

  /**
   The back-off counter is never read: the events and every other field of
   the outcome are the same whatever value it holds.
   */
  lemma StepIgnoresBackoff<SV, S, J>(ops: SlidingOps<SV, S, J>, noOfCycles: int, s: Worker<SV, J>, env: Env<S>, x: Option<int>)
    ensures var (r1, e1) := Step(ops, noOfCycles, s, env);
      var (r2, e2) := Step(ops, noOfCycles, s.(increasedNoOfCycles := x), env);
      && e1 == e2
      && r1.(increasedNoOfCycles := None) == r2.(increasedNoOfCycles := None)
  {
    var s2 := s.(increasedNoOfCycles := x);
    assert Collected(ops, s, env) == Collected(ops, s2, env);
    var (collected, failure) := Collected(ops, s, env);
    if failure.Some? {
      assert Step(ops, noOfCycles, s, env).1 == CastFailed(failure.value) == Step(ops, noOfCycles, s2, env).1;
    } else if s.cycleCount + 1 < noOfCycles {
      assert Step(ops, noOfCycles, s, env).1 == Waiting == Step(ops, noOfCycles, s2, env).1;
    } else {
      var (values, asked) := Snapshot.Snapshot(ops, collected, s.sendChangedValuesOnly);
      var t := s.(cycleCount := 0, sendChangedValuesOnly := true, data := asked);
      var t2 := s2.(cycleCount := 0, sendChangedValuesOnly := true, data := asked);
      assert t2 == t.(increasedNoOfCycles := x);
      DeliverIgnoresBackoff(noOfCycles, t, values, env, x);
      var d1 := Deliver(noOfCycles, t, values, env);
      var d2 := Deliver(noOfCycles, t2, values, env);
      assert Step(ops, noOfCycles, s, env) == (d1.0, Flushed(s.sendChangedValuesOnly, d1.1));
      assert Step(ops, noOfCycles, s2, env) == (d2.0, Flushed(s.sendChangedValuesOnly, d2.1));
    }
  }

  /** `Deliver` does not read the back-off either. */
  lemma DeliverIgnoresBackoff<SV, S, J>(noOfCycles: int, s: Worker<SV, J>, values: map<ChannelAddress, J>, env: Env<S>, x: Option<int>)
    ensures var (r1, o1) := Deliver(noOfCycles, s, values, env);
      var (r2, o2) := Deliver(noOfCycles, s.(increasedNoOfCycles := x), values, env);
      && o1 == o2
      && r1.(increasedNoOfCycles := None) == r2.(increasedNoOfCycles := None)
  {
  }

  /** The cache as `Deliver` leaves it. */
  lemma DeliverCache<SV, S, J>(noOfCycles: int, s: Worker<SV, J>, values: map<ChannelAddress, J>, env: Env<S>)
    ensures var (r, o) := Deliver(noOfCycles, s, values, env);
      && (o.Cached? ==> r.unsent == UnsentCache.Push(s.unsent, o.msg))
      && (o.Sent? ==> r.unsent == UnsentCache.Drain(s.unsent, env.transport, 1))
      && (o.NothingToSend? ==> r.unsent == UnsentCache.Drain(s.unsent, env.transport, 0))
      && (o.ZeroCycleTime? ==> r.unsent == s.unsent)
  {
  }

  /**
   The cache: a rejected message is pushed at the tail and nothing is
   retried; after an accepted message, or when there was nothing to send,
   every cached message is retried once, oldest first, and only the rejected
   ones stay; the cache shrinks by exactly the number accepted.
   */
  lemma StepCache<SV, S, J>(ops: SlidingOps<SV, S, J>, noOfCycles: int, s: Worker<SV, J>, env: Env<S>)
    ensures var (r, e) := Step(ops, noOfCycles, s, env);
      && (e.Flushed? && e.outcome.Cached? ==> r.unsent == UnsentCache.Push(s.unsent, e.outcome.msg))
      && (e.Flushed? && e.outcome.Sent? ==>
            && r.unsent == UnsentCache.Drain(s.unsent, env.transport, 1)
            && |r.unsent| == |s.unsent| - UnsentCache.Accepted(env.transport, 1, |s.unsent|))
      && (e.Flushed? && e.outcome.NothingToSend? ==>
            && r.unsent == UnsentCache.Drain(s.unsent, env.transport, 0)
            && |r.unsent| == |s.unsent| - UnsentCache.Accepted(env.transport, 0, |s.unsent|))
      && (!(e.Flushed? && (e.outcome.Sent? || e.outcome.Cached? || e.outcome.NothingToSend?)) ==>
            r.unsent == s.unsent)
  {
    UnsentCache.DrainLength(s.unsent, env.transport, 0);
    UnsentCache.DrainLength(s.unsent, env.transport, 1);
    var (collected, failure) := Collected(ops, s, env);
    if failure.None? && s.cycleCount + 1 >= noOfCycles {
      var (values, asked) := Snapshot.Snapshot(ops, collected, s.sendChangedValuesOnly);
      DeliverCache(noOfCycles, s.(cycleCount := 0, sendChangedValuesOnly := true, data := asked), values, env);
    }
  }

  /**
   After `sendValuesOfAllChannelsOnce` the next flush is an all-values one:
   it carries every address of the collected data, so it sends whenever
   there is any data at all.
   */
  lemma AllValuesOnceNextFlush<SV, S, J>(ops: SlidingOps<SV, S, J>, noOfCycles: int, s: Worker<SV, J>, env: Env<S>)
    requires Step(ops, noOfCycles, SendValuesOfAllChannelsOnce(s), env).1.Flushed?
    ensures var (r, e) := Step(ops, noOfCycles, SendValuesOfAllChannelsOnce(s), env);
      var collected := Collected(ops, s, env).0;
      && !e.changedOnly
      && r.sendChangedValuesOnly
      && (e.outcome.NothingToSend? <==> |collected| == 0)
      && ((e.outcome.Sent? || e.outcome.Cached?) ==> e.outcome.msg.values.Keys == collected.Keys)
  {
    Snapshot.AllValuesNeverEmpty(ops, Collected(ops, s, env).0);
  }
}
